=== FILE: README.md ===
# Wording check: a Dafny model

This project models the core of a small wording-check tool. An
organisation keeps a table of wording rules. Each row pairs an incorrect
form (column `誤表記`) with its correct form (column `正表記`). The tool
opens a document from a URL, an uploaded file or pasted text, and stores
it in the session. The analysis then scans the document's text for every
incorrect form. Each rule whose incorrect form occurs is reported as one
line `incorrect → correct`, appended to the running analysis output.

The model is functional. Immutable datatypes stand for the session, the
rule table, tables and parser outcomes, and pure functions stand for the
operations. The modules follow the program's parts:

- `Options`: `Option` and `FirstSome`, the "first attempt that succeeds"
  rule behind the chain of `read_success` guards.
- `Text`: the Python string operations used:
  - `in`
  - `sep.join`
  - `split` on one character
  - `strip()`, with Python's `isspace` set, including U+3000
  - `splitlines()` on `'\n'`
- `Tables`: a pandas frame after `astype(str)`, seen as column labels plus
  rows of cell strings. It also gives the text a frame yields when searched.
- `Normalizer`: opening a document:
  - the URL fallback chain: CSV, Excel, fetch, then Excel, Word, PDF and
    text on the fetched bytes
  - PDF page filtering
  - the UTF-8 decode with its Latin-1 fallback
  - the extension dispatch for uploads
  - pasted text
- `Matcher`: the rule table's rules, the findings, the report lines and
  how they are appended.
- `Analysis`: the session state, what a loaded document stores in it,
  haystack selection and one run of the analysis button.

The third-party readers are fields of the `Parsers` datatype: pandas
`read_csv`/`read_excel`, python-docx paragraphs, pypdf pages, the HTTP
fetch and the UTF-8 decoder. Each is a total function returning `None`
where the tool raises. Latin-1 decoding is defined concretely,
because it maps each byte to the code point of the same value and cannot
fail.

The model follows the code, including these behaviours:

- Only a pattern that is exactly `""` is skipped. A whitespace-only
  pattern is searched like any other, and is not trimmed.
- The text searched for a frame is built from `row.values`, so column
  headers are not searchable. A frame with no rows is the exception; see
  "Left out".
- After a successful fetch, the URL chain cannot fail, because the
  Latin-1 decode is total. The error is shown only when CSV and Excel on
  the URL fail and the fetch fails too.
- Reading fetched bytes as Excel counts as success but stores nothing. The
  previously opened document stays current.
- An uploaded `.docx` is stored even when its text is blank. An uploaded
  `.txt` that is not UTF-8 is an error; it is not decoded as Latin-1.
- Findings accumulate. Each run appends its lines to the previous output
  and never clears it.

## Model

| member | source | states |
|---|---|---|
| Options.FirstSome | streamlit_trial_1.py:58-150 | the chain's result is the first attempt that succeeded, with every earlier attempt failed; it is None exactly when every attempt failed |
| Options.FirstSomeAppend | streamlit_trial_1.py:58-150 | attempts after a success are never consulted; after a run of failures the chain hands over to the attempts that follow |
| Text.ContainsIffOccurs | streamlit_trial_1.py:304 | the containment scan holds exactly when the pattern occurs at some index of the haystack (literal, case-sensitive, anywhere) |
| Text.Contains | streamlit_trial_1.py:304 | a pattern is only found in a haystack at least as long as it, and "" is found in every haystack |
| Text.Strip | streamlit_trial_1.py:106 | `strip()` leaves a piece of the text with only whitespace around it, and the piece neither starts nor ends with whitespace |
| Text.SplitLines | streamlit_trial_1.py:156 | `splitlines()` gives no lines exactly for the empty text, and no line holds a line break |
| Text.StripEmptyIffBlank | streamlit_trial_1.py:106 | `strip()` returns "" exactly when every character is Python whitespace, so `if text.strip():` rejects exactly the blank texts |
| Text.SplitLinesJoin | streamlit_trial_1.py:156 | joining the lines of a text with "\n" restores the text, apart from one final line break |
| Text.SplitJoin | streamlit_trial_1.py:313 | splitting a "\n"-joined list of break-free lines gives the list back |
| Tables.Cell | streamlit_trial_1.py:299-300 | `row.get(name, "")` is "" when the column is absent, and otherwise the cell under the first column with that label |
| Tables.TableText | streamlit_trial_1.py:289 | every row's line of cells is in the frame's searchable text; a frame with no rows yields "" (see "Left out") |
| Tables.CellSearchable | streamlit_trial_1.py:289 | whatever occurs inside any cell of a frame occurs in the frame's searchable text |
| Tables.AdjacentCellsSearchable | streamlit_trial_1.py:289 | text running across two neighbouring cells of a row, with one space between them, is found in the frame's searchable text |
| Tables.RowTextCells | streamlit_trial_1.py:289 | a row's line splits at its spaces back into the row's cells when no cell holds a space, so the cells are separated by exactly one space |
| Tables.TableTextExample | streamlit_trial_1.py:289 | the frame with rows a, b and c, d is searched as "a b\nc d" |
| Tables.TableTextLines | streamlit_trial_1.py:289 | the frame's searchable text holds one line per row, in row order, each the row's cells joined with " " |
| Tables.LinesTableText | streamlit_trial_1.py:156-157 | the text of the one-column frame of lines is those lines joined with "\n" |
| Matcher.RulesOf | streamlit_trial_1.py:277-280 | the rules exist exactly when both required columns exist; then there is one rule per row, in row order, with the row's two cells |
| Matcher.Findings | streamlit_trial_1.py:296-309 | there are never more findings than rules, and there are none exactly when no rule has a non-empty pattern that occurs in the haystack |
| Matcher.FindingsMembership | streamlit_trial_1.py:301-305 | every rule with a non-empty pattern that occurs is reported, and every finding comes from such a rule |
| Matcher.FindingsAppend | streamlit_trial_1.py:297-309 | rules are independent and findings keep row order: the findings of a table split in two are those of the first part followed by those of the second |
| Matcher.FindingsAtRow | streamlit_trial_1.py:297-309 | each rule contributes exactly one finding if its non-empty pattern occurs, and none otherwise, in its own row position |
| Matcher.EmptyPatternIgnored | streamlit_trial_1.py:301-302 | a rule whose pattern is "" never contributes: removing it leaves the findings unchanged |
| Matcher.FindingsDependOnlyOnContainment | streamlit_trial_1.py:304-305 | only whether a pattern occurs matters, not how often or where: haystacks with the same patterns give the same findings |
| Matcher.Render | streamlit_trial_1.py:305 | a report line is the pattern, then the arrow " → ", then the replacement, and holds a line break only when the pattern or replacement does |
| Matcher.RenderExample | streamlit_trial_1.py:305 | the finding foo → bar is reported as the line "foo → bar" |
| Matcher.AppendReport | streamlit_trial_1.py:311-317 | the previous output is always a prefix of the new one, and is unchanged when nothing was found |
| Matcher.AppendReportLines | streamlit_trial_1.py:311-314 | read back line by line, the new output is the old output's lines (none if it was "") followed by the new report lines |
| Matcher.WorkedExample | streamlit_trial_1.py:296-309 | rules foo → bar, "" → baz, hello → hi against "foo and hello" report foo → bar and then hello → hi |
| Matcher.WhitespacePatternReported | streamlit_trial_1.py:299-302 | a pattern of one space is not skipped and is reported against a text containing a space |
| Normalizer.Latin1 | streamlit_trial_1.py:155 | the Latin-1 decode keeps the length and maps each byte to the code point of the same value |
| Normalizer.DecodeText | streamlit_trial_1.py:152-155 | the text step yields the UTF-8 decoding when there is one, and otherwise the byte-for-byte Latin-1 decoding |
| Normalizer.KeptPages | streamlit_trial_1.py:127-134 | kept pages are never empty, there are at most as many as pages, and none is kept exactly when no page yielded non-empty text |
| Normalizer.KeptPagesAppend | streamlit_trial_1.py:128-134 | pages are kept in page order |
| Normalizer.PageKept | streamlit_trial_1.py:128-134 | every page whose extraction yielded non-empty text is kept |
| Normalizer.PdfText | streamlit_trial_1.py:127-136 | the PDF step fails exactly when no page yielded non-empty text (a failed extraction counts as none); otherwise its text is the kept pages joined with "\n" |
| Normalizer.PdfTextPages | streamlit_trial_1.py:127-136 | split at its line breaks, the PDF text gives back exactly the non-empty pages in page order, when no page holds a line break |
| Normalizer.PdfPageSearchable | streamlit_trial_1.py:127-136 | a pattern occurring in any page's text makes the PDF step succeed, and the pattern occurs in the resulting text |
| Normalizer.DocxAttempt | streamlit_trial_1.py:102-118 | a Word document counts exactly when it parses and its paragraphs joined with "\n" are not blank, and then that joined text is stored |
| Normalizer.ExcelBytesAttempt | streamlit_trial_1.py:93-97 | Excel on the fetched bytes counts exactly when the Excel reader accepts them, and then stores nothing |
| Normalizer.PdfAttempt | streamlit_trial_1.py:120-147 | the PDF step counts exactly when the reader is installed, opens the bytes and some page yields text, and then the PDF text is what is stored |
| Normalizer.ByteAttempts | streamlit_trial_1.py:92-166 | four readers are tried on fetched bytes; the last, the text decode, always succeeds, and none of them stores a table or fails with an error |
| Normalizer.UrlAttempts | streamlit_trial_1.py:58-168 | CSV and Excel on the URL come first and can only store a table; the readers on the bytes follow only when the fetch succeeds |
| Normalizer.OpenBytes | streamlit_trial_1.py:92-166 | on fetched bytes the result is the first success among Excel, Word, PDF and text; it never fails and never stores a table |
| Normalizer.OpenUrl | streamlit_trial_1.py:56-173 | an empty URL only warns; otherwise the result is the first success of the chain, and the error appears exactly when CSV, Excel and the fetch all fail |
| Normalizer.BlankDocxFallsThrough | streamlit_trial_1.py:104-106 | a Word document with blank text is treated exactly like one that could not be parsed |
| Normalizer.ExtensionsExclusive | streamlit_trial_1.py:196-215 | no file name has two of the handled extensions, so the order of the tests does not matter |
| Normalizer.OpenUpload | streamlit_trial_1.py:195-226 | the reader is chosen by extension with no fallback: .csv and .xls/.xlsx store the frame their reader yields, .txt stores its UTF-8 text, .docx stores its paragraphs joined with "\n" even if blank; a reader that fails is an error, and any other name matches nothing |
| Normalizer.UploadDependsOnlyOnExtension | streamlit_trial_1.py:196-215 | two uploads with the same bytes and the same handled extension are opened the same way, whatever the rest of their names |
| Normalizer.UsePastedText | streamlit_trial_1.py:231-243 | pasted text is stored verbatim exactly when it is not blank; otherwise only a warning is shown |
| Analysis.Store | streamlit_trial_1.py:196-224 | a table replaces the frame and drops any stored text; a text is stored with its frame of lines; any other outcome leaves the session as it was |
| Analysis.Haystack | streamlit_trial_1.py:282-294 | there is no haystack exactly when there is neither a non-empty stored text nor a frame; a non-empty stored text is searched verbatim, and otherwise the frame's rows are |
| Analysis.StoredTextIsHaystack | streamlit_trial_1.py:282-291 | after a non-empty text is stored, exactly that text is searched; for an empty text the model searches "" (see "Left out") |
| Analysis.StoredTableIsHaystack | streamlit_trial_1.py:282-291 | after a table is stored, its rows are searched, never a text left from an earlier document |
| Analysis.Analyze | streamlit_trial_1.py:270-318 | a missing rule table, a missing column and a missing document are distinct outcomes that leave the output unchanged; issues are found exactly when some rule is eligible; the output only grows |
| Analysis.EligibleRuleReported | streamlit_trial_1.py:296-314 | every rule whose non-empty pattern occurs in the haystack has its `pattern → replacement` line in the new output |
| Analysis.AnalyzeAppendsLines | streamlit_trial_1.py:311-314 | a run that finds issues keeps the earlier output's lines and adds one line per finding, in rule order |
| Analysis.TableCellPatternReported | streamlit_trial_1.py:285-305 | a rule whose non-empty pattern occurs inside any cell of a stored table has its `pattern → replacement` line in the output when that table is analysed |

## Left out

- `pages/1_wording_rules.py` is not modelled. It covers rule-table
  editing, pickle persistence and CSV download, which are UI and file
  storage. Persistence of the rule table is not modelled.
- The analysis takes the rule table as a parameter. Loading it from
  session state or a pickle file (streamlit_trial_1.py:256-268) is
  persistence.
- The "open rule document" preview (streamlit_trial_1.py:24-44) only
  displays a frame and changes no state.
- Normalizer.OpenUpload: the upload branch assigns
  `st.session_state["local_file_path"]` (streamlit_trial_1.py:192) after a
  widget with that key was created in the same run
  (streamlit_trial_1.py:182). Streamlit may reject that with an exception
  raised outside the `try` at streamlit_trial_1.py:195. The model assumes
  the extension dispatch is reached.
- Streamlit widgets, messages and rendering are not modelled. Outcomes
  carry a status instead of a message.
- The HTTP fetch and its 15-second timeout are not modelled. The fetch is
  a parameter returning the bytes or `None`. The content type and
  lower-cased URL computed at streamlit_trial_1.py:89-90 are never used
  by the code.
- The internals of pandas, python-docx and pypdf, and UTF-8 decoding, are
  parameters.
- Text.SplitLines: splits on `'\n'` only, not on the other line
  boundaries of Python's `splitlines`. The lines only feed the haystack
  when the stored text is `""`, and then there are none either way.
- Pandas' stringification of blank cells as `"nan"` is not modelled.
  Cells are taken as already-stringified strings.
- The `to_string()` fallback (streamlit_trial_1.py:291) and the
  `str(...)` retry in the matcher's `except` branch
  (streamlit_trial_1.py:306-309) are exception-recovery paths over pandas
  objects.
- Tables.TableText: a frame with zero rows yields `""`. In pandas,
  `apply(..., axis=1)` on such a frame yields a frame, not a series, and
  `.tolist()` raises. The source then searches `to_string()`
  (streamlit_trial_1.py:290-291), e.g. `Empty DataFrame`, the column
  labels and `Index: []`. Rules matching those words are reported there
  and not in the model. The same gap reaches Analysis.Haystack and
  Analysis.StoredTableIsHaystack for a header-only CSV or Excel document.
- Analysis.StoredTextIsHaystack: for an empty stored text the model
  searches `""`. The source stores a frame with no rows there, so it
  searches that frame's `to_string()` text instead, which holds the header
  `text`.
- Tables.Cell: with duplicate column labels pandas returns several
  values. The model takes the first column with the label.
- Tables.Cell: a row shorter than the header yields `""`. Pandas frames
  are rectangular, so this never arises there.

=== FILE: analysis.dfy ===
/** The session the analysis reads and the analysis run itself: which text
    is searched (the haystack), and how a run changes the analysis output. */
module Analysis {
  import opened Options
  import opened Text
  import opened Tables
  import opened Matcher
  import opened Normalizer

  /** The session keys the analysis uses: the stored full text, the stored
      frame, and the accumulated analysis output. */
  datatype Session = Session(fullText: Option<string>, frame: Option<Table>, output: string)

  /** What opening a document leaves in the session. A table replaces the
      frame and drops any stored full text; a text is stored together with
      the one-column frame of its lines; anything else leaves the session
      untouched, including a successful Excel read of fetched bytes. */
  function Store(s: Session, l: Loaded): (r: Session)
    ensures r.output == s.output
    ensures l.TableDoc? ==> r.fullText.None? && r.frame == Some(l.table)
    ensures l.TextDoc? ==> r.fullText == Some(l.text) && r.frame == Some(LinesTable(SplitLines(l.text)))
    ensures l.ParsedNotStored? || l.Failed? ==> r == s
  {
    match l
    case TableDoc(t) => s.(fullText := None, frame := Some(t))
    case TextDoc(text) => s.(fullText := Some(text), frame := Some(LinesTable(SplitLines(text))))
    case ParsedNotStored => s
    case Failed(_) => s
  }

  /** The text searched by the analysis: a non-empty stored full text as it
      is; otherwise the stored frame's rows, cells joined with " " and rows
      with "\n"; None when neither is there. */
  function Haystack(s: Session): (h: Option<string>)
    ensures h.None? <==> (s.fullText.None? || s.fullText.value == "") && s.frame.None?
    ensures s.fullText.Some? && s.fullText.value != "" ==> h == s.fullText
    ensures (s.fullText.None? || s.fullText.value == "") && s.frame.Some? ==> h == Some(TableText(s.frame.value))
  {
    if s.fullText.Some? && s.fullText.value != "" then s.fullText
    else if s.frame.Some? then Some(TableText(s.frame.value))
    else None
  }

  /** After a text is stored the analysis searches exactly that text. For
      an empty text this rests on the frame of no lines yielding "". */
  lemma StoredTextIsHaystack(s: Session, text: string)
    ensures Haystack(Store(s, TextDoc(text))) == Some(text)
  {
    if text == "" {
      LinesTableText(SplitLines(text));
    }
  }

  /** After a table is stored the analysis searches the table's rows, never
      a full text left over from an earlier document. */
  lemma StoredTableIsHaystack(s: Session, t: Table)
    ensures Haystack(Store(s, TableDoc(t))) == Some(TableText(t))
  {
  }

  /** How an analysis run ended. */
  datatype Status =
    | NoRuleTable    // no rule table is loaded: an error
    | MissingColumn  // the rule table lacks one of the two required columns: an error
    | NoDocument     // no document is open: a warning
    | IssuesFound    // report lines were appended to the output
    | NoIssues       // the run found nothing

  datatype RunResult = RunResult(status: Status, output: string)

  /** The rule table has both columns and some rule is reported against `hay`. */
  predicate HasFinding(t: Table, hay: string)
  {
    RulesOf(t).Some? && exists i | 0 <= i < |RulesOf(t).value| :: Eligible(RulesOf(t).value[i], hay)
  }

  /** One press of the analysis button. Errors and warnings leave the output
      as it was; findings are appended to it, so the output only grows. */
  function Analyze(s: Session, ruleTable: Option<Table>): (r: RunResult)
    ensures s.output <= r.output
    ensures r.status != IssuesFound ==> r.output == s.output
    ensures r.status == NoRuleTable <==> ruleTable.None?
    ensures r.status == MissingColumn
        <==> ruleTable.Some? && (IncorrectColumn !in ruleTable.value.columns || CorrectColumn !in ruleTable.value.columns)
    ensures r.status == NoDocument <==> ruleTable.Some? && RulesOf(ruleTable.value).Some? && Haystack(s).None?
    ensures r.status == IssuesFound <==> ruleTable.Some? && Haystack(s).Some? && HasFinding(ruleTable.value, Haystack(s).value)
  {
    match ruleTable
    case None => RunResult(NoRuleTable, s.output)
    case Some(t) =>
      match RulesOf(t)
      case None => RunResult(MissingColumn, s.output)
      case Some(rules) =>
        match Haystack(s)
        case None => RunResult(NoDocument, s.output)
        case Some(hay) =>
          var lines := ReportLines(Findings(rules, hay));
          if lines == [] then RunResult(NoIssues, s.output)
          else RunResult(IssuesFound, AppendReport(s.output, lines))
  }

  /** Every rule whose pattern occurs in the haystack has its report line in
      the new output. */
  lemma EligibleRuleReported(s: Session, t: Table, i: int)
    requires RulesOf(t).Some? && Haystack(s).Some?
    requires 0 <= i < |RulesOf(t).value| && Eligible(RulesOf(t).value[i], Haystack(s).value)
    ensures Analyze(s, Some(t)).status == IssuesFound
    ensures Contains(Analyze(s, Some(t)).output, Render(FindingOf(RulesOf(t).value[i])))
  {
    var rules, hay := RulesOf(t).value, Haystack(s).value;
    var fs := Findings(rules, hay);
    var lines := ReportLines(fs);
    FindingsMembership(rules, hay);
    var k :| 0 <= k < |fs| && fs[k] == FindingOf(rules[i]);
    JoinContainsPart(lines, "\n", k);
    var prefix := s.output + (if s.output != "" then "\n" else "");
    assert AppendReport(s.output, lines) == prefix + Join(lines, "\n");
    ContainsExtendLeft(prefix, Join(lines, "\n"), lines[k]);
  }

  /** Read back line by line, a run that found issues leaves the earlier
      output's lines in place and adds one line per finding, in rule order. */
  lemma AnalyzeAppendsLines(s: Session, t: Table)
    requires Analyze(s, Some(t)).status == IssuesFound
    requires forall i | 0 <= i < |t.rows| :: '\n' !in Cell(t, t.rows[i], IncorrectColumn)
    requires forall i | 0 <= i < |t.rows| :: '\n' !in Cell(t, t.rows[i], CorrectColumn)
    ensures Split(Analyze(s, Some(t)).output, '\n')
         == (if s.output == "" then [] else Split(s.output, '\n'))
            + ReportLines(Findings(RulesOf(t).value, Haystack(s).value))
  {
    var rules, hay := RulesOf(t).value, Haystack(s).value;
    var fs := Findings(rules, hay);
    var lines := ReportLines(fs);
    assert Analyze(s, Some(t)).output == AppendReport(s.output, lines);
    FindingsMembership(rules, hay);
    forall k | 0 <= k < |lines|
      ensures '\n' !in lines[k]
    {
      assert fs[k] in fs;
      var i :| 0 <= i < |rules| && Eligible(rules[i], hay) && fs[k] == FindingOf(rules[i]);
      assert '\n' !in rules[i].pattern && '\n' !in rules[i].replacement;
      assert lines[k] == Render(FindingOf(rules[i]));
    }
    AppendReportLines(s.output, lines);
  }

  /** A pattern found inside any cell of a stored table is reported when the
      table is analysed. */
  lemma TableCellPatternReported(s: Session, doc: Table, rules: Table, r: int, c: int, k: int)
    requires 0 <= r < |doc.rows| && 0 <= c < |doc.rows[r]|
    requires RulesOf(rules).Some? && 0 <= k < |RulesOf(rules).value|
    requires RulesOf(rules).value[k].pattern != ""
    requires Contains(doc.rows[r][c], RulesOf(rules).value[k].pattern)
    ensures Analyze(Store(s, TableDoc(doc)), Some(rules)).status == IssuesFound
    ensures Contains(Analyze(Store(s, TableDoc(doc)), Some(rules)).output, Render(FindingOf(RulesOf(rules).value[k])))
  {
    StoredTableIsHaystack(s, doc);
    CellSearchable(doc, r, c, RulesOf(rules).value[k].pattern);
    EligibleRuleReported(Store(s, TableDoc(doc)), rules, k);
  }
}

=== FILE: matcher.dfy ===
/** The wording check proper: turning the rule table into (pattern,
    replacement) rules, finding the rules whose pattern occurs in the
    haystack, and appending the "pattern → replacement" lines to the
    analysis output. */
module Matcher {
  import opened Options
  import opened Text
  import opened Tables

  /** Header of the column holding the incorrect form (the pattern). */
  const IncorrectColumn: string := "誤表記"
  /** Header of the column holding the correct form (the replacement). */
  const CorrectColumn: string := "正表記"
  /** What separates a pattern from its replacement in a report line. */
  const Arrow: string := " → "

  /** One row of the rule table, both cells already stringified. */
  datatype Rule = Rule(pattern: string, replacement: string)

  /** One rule confirmed present in the haystack. */
  datatype Finding = Finding(pattern: string, replacement: string)

  function FindingOf(r: Rule): Finding
  {
    Finding(r.pattern, r.replacement)
  }

  /** The rules of a rule table, in row order; None when either required
      column is missing, in which case the analysis reports an error. */
  function RulesOf(t: Table): (r: Option<seq<Rule>>)
    ensures r.Some? <==> IncorrectColumn in t.columns && CorrectColumn in t.columns
    ensures r.Some? ==> |r.value| == |t.rows|
    ensures r.Some? ==> forall i | 0 <= i < |t.rows| ::
              r.value[i].pattern == Cell(t, t.rows[i], IncorrectColumn)
              && r.value[i].replacement == Cell(t, t.rows[i], CorrectColumn)
  {
    if IncorrectColumn !in t.columns || CorrectColumn !in t.columns then None
    else Some(seq(|t.rows|, i requires 0 <= i < |t.rows| =>
                    Rule(Cell(t, t.rows[i], IncorrectColumn), Cell(t, t.rows[i], CorrectColumn))))
  }

  /** A rule is reported when its pattern is not the empty string and occurs
      in the haystack. Only "" is skipped: a whitespace-only pattern is
      searched like any other. */
  predicate Eligible(r: Rule, hay: string)
  {
    r.pattern != "" && Contains(hay, r.pattern)
  }

  /** What one rule contributes: its finding if eligible, nothing otherwise. */
  function FindingsOfRule(r: Rule, hay: string): seq<Finding>
  {
    if Eligible(r, hay) then [FindingOf(r)] else []
  }

  /** The findings of a rule table against a haystack, walking the rules in
      row order. */
  function Findings(rules: seq<Rule>, hay: string): (fs: seq<Finding>)
    ensures |fs| <= |rules|
    ensures fs == [] <==> forall i | 0 <= i < |rules| :: !Eligible(rules[i], hay)
  {
    if |rules| == 0 then []
    else
      var rest := Findings(rules[1..], hay);
      assert forall i | 1 <= i < |rules| :: rules[i] == rules[1..][i - 1];
      FindingsOfRule(rules[0], hay) + rest
  }

  /** Every eligible rule is reported, and every finding is the finding of
      an eligible rule. */
  lemma {:induction false} FindingsMembership(rules: seq<Rule>, hay: string)
    ensures forall i | 0 <= i < |rules| && Eligible(rules[i], hay) :: FindingOf(rules[i]) in Findings(rules, hay)
    ensures forall f | f in Findings(rules, hay) ::
              exists i | 0 <= i < |rules| :: Eligible(rules[i], hay) && f == FindingOf(rules[i])
    decreases |rules|
  {
    if |rules| > 0 {
      var rest := rules[1..];
      FindingsMembership(rest, hay);
      assert forall i | 1 <= i < |rules| :: rules[i] == rest[i - 1];
      forall f | f in Findings(rules, hay)
        ensures exists i | 0 <= i < |rules| :: Eligible(rules[i], hay) && f == FindingOf(rules[i])
      {
        if f !in FindingsOfRule(rules[0], hay) {
          assert f in Findings(rest, hay);
          var k :| 0 <= k < |rest| && Eligible(rest[k], hay) && f == FindingOf(rest[k]);
          assert rules[k + 1] == rest[k];
        }
      }
    }
  }

  /** Rules are independent and keep their row order: the findings of two
      consecutive blocks of rules are the findings of the first block
      followed by those of the second. */
  lemma {:induction false} FindingsAppend(a: seq<Rule>, b: seq<Rule>, hay: string)
    ensures Findings(a + b, hay) == Findings(a, hay) + Findings(b, hay)
    decreases |a|
  {
    if |a| == 0 {
      assert a + b == b;
    } else {
      assert (a + b)[0] == a[0];
      assert (a + b)[1..] == a[1..] + b;
      FindingsAppend(a[1..], b, hay);
    }
  }

  /** Exactly one finding per eligible rule, at that rule's position among
      the findings of the rules before and after it, however often the
      pattern occurs and whatever the other rules do. */
  lemma FindingsAtRow(rules: seq<Rule>, hay: string, i: int)
    requires 0 <= i < |rules|
    ensures Findings(rules, hay)
         == Findings(rules[..i], hay) + FindingsOfRule(rules[i], hay) + Findings(rules[i + 1..], hay)
  {
    var before, after := rules[..i], rules[i + 1..];
    assert rules == before + ([rules[i]] + after);
    calc {
      Findings(rules, hay);
      { FindingsAppend(before, [rules[i]] + after, hay); }
      Findings(before, hay) + Findings([rules[i]] + after, hay);
      { assert ([rules[i]] + after)[1..] == after; }
      Findings(before, hay) + (FindingsOfRule(rules[i], hay) + Findings(after, hay));
    }
  }

  /** A rule whose pattern is the empty string changes nothing: removing it
      from the table leaves the findings as they were. */
  lemma EmptyPatternIgnored(rules: seq<Rule>, hay: string, i: int)
    requires 0 <= i < |rules| && rules[i].pattern == ""
    ensures Findings(rules, hay) == Findings(rules[..i] + rules[i + 1..], hay)
  {
    var before, after := rules[..i], rules[i + 1..];
    calc {
      Findings(rules, hay);
      { FindingsAtRow(rules, hay, i); }
      Findings(before, hay) + FindingsOfRule(rules[i], hay) + Findings(after, hay);
      { assert FindingsOfRule(rules[i], hay) == []; }
      Findings(before, hay) + Findings(after, hay);
      { FindingsAppend(before, after, hay); }
      Findings(before + after, hay);
    }
  }

  /** Only whether each pattern occurs matters, not where or how often: two
      haystacks that contain the same patterns give the same findings. */
  lemma {:induction false} FindingsDependOnlyOnContainment(rules: seq<Rule>, h1: string, h2: string)
    requires forall i | 0 <= i < |rules| :: Contains(h1, rules[i].pattern) == Contains(h2, rules[i].pattern)
    ensures Findings(rules, h1) == Findings(rules, h2)
    decreases |rules|
  {
    if |rules| > 0 {
      assert forall i | 1 <= i < |rules| :: rules[1..][i - 1] == rules[i];
      FindingsDependOnlyOnContainment(rules[1..], h1, h2);
    }
  }

  /** The report line of one finding: the pattern, the arrow, then the
      replacement; a line break only if the pattern or replacement has one. */
  function Render(f: Finding): (line: string)
    ensures |line| == |f.pattern| + |Arrow| + |f.replacement|
    ensures f.pattern <= line
    ensures line[|f.pattern|..|f.pattern| + |Arrow|] == Arrow
    ensures line[|line| - |f.replacement|..] == f.replacement
    ensures '\n' in line <==> '\n' in f.pattern || '\n' in f.replacement
  {
    assert '\n' !in Arrow;
    f.pattern + Arrow + f.replacement
  }

  /** The report line of foo → bar. */
  lemma RenderExample()
    ensures Render(Finding("foo", "bar")) == "foo \U{2192} bar"
  {
  }

  /** The report lines of the findings, in order. */
  function ReportLines(fs: seq<Finding>): (lines: seq<string>)
    ensures |lines| == |fs|
    ensures forall i | 0 <= i < |fs| :: lines[i] == Render(fs[i])
  {
    seq(|fs|, i requires 0 <= i < |fs| => Render(fs[i]))
  }

  /** The analysis output after a run whose report lines are `lines`: the
      previous output, a "\n" if it was not empty, then the lines joined with
      "\n"; untouched when there are no lines. */
  function AppendReport(prev: string, lines: seq<string>): (out: string)
    ensures lines == [] ==> out == prev
    ensures prev <= out
  {
    if lines == [] then prev
    else prev + (if prev != "" then "\n" else "") + Join(lines, "\n")
  }

  /** Read back line by line, the new output is the old output's lines
      followed by the new report lines: earlier reports are never lost or
      reordered. */
  lemma AppendReportLines(prev: string, lines: seq<string>)
    requires lines != []
    requires forall k | 0 <= k < |lines| :: '\n' !in lines[k]
    ensures Split(AppendReport(prev, lines), '\n')
         == (if prev == "" then [] else Split(prev, '\n')) + lines
  {
    var body := Join(lines, "\n");
    SplitJoin(lines, '\n');
    if prev != "" {
      assert AppendReport(prev, lines) == prev + ['\n'] + body;
      SplitConcat(prev, body, '\n');
    } else {
      assert AppendReport(prev, lines) == body;
    }
  }

  /** The worked example: with rules foo → bar, "" → baz and hello → hi
      against "foo and hello", the empty-pattern rule is skipped and the
      other two are reported in row order. */
  lemma WorkedExample()
    ensures Findings([Rule("foo", "bar"), Rule("", "baz"), Rule("hello", "hi")], "foo and hello")
         == [Finding("foo", "bar"), Finding("hello", "hi")]
  {
    var hay := "foo and hello";
    var rules := [Rule("foo", "bar"), Rule("", "baz"), Rule("hello", "hi")];
    assert "foo" <= hay;
    assert hay == "foo and " + "hello";
    assert "hello" <= "hello";
    ContainsExtendLeft("foo and ", "hello", "hello");
    assert rules[1..][1..] == [Rule("hello", "hi")];
    assert rules[1..][1..][1..] == [];
  }

  /** A whitespace-only pattern is not skipped: a single space is reported
      against any text holding one. */
  lemma WhitespacePatternReported()
    ensures Findings([Rule(" ", "")], "a b") == [Finding(" ", "")]
  {
    assert "a b"[1..] == " b";
    assert " " <= " b";
  }
}

=== FILE: normalizer.dfy ===
/** Opening a document: the fallback chain for a URL, the extension
    dispatch for an uploaded file, and pasted text. Each outcome says what
    the session stores (a table, or a text together with its lines) or why
    nothing is stored. The third-party readers (pandas, python-docx, pypdf),
    the HTTP fetch and the UTF-8 decoder are parameters. */
module Normalizer {
  import opened Options
  import opened Text
  import opened Tables

  newtype byte = x: int | 0 <= x < 256

  type Bytes = seq<byte>

  /** The external readers, each returning None where the tool raises.
      `pdf` yields None when the reader cannot open the bytes, and otherwise
      one entry per page: the extracted text, or None when extraction raised
      or returned nothing. */
  datatype Parsers = Parsers(
    csvAt: string -> Option<Table>,
    excelAt: string -> Option<Table>,
    fetch: string -> Option<Bytes>,
    csv: Bytes -> Option<Table>,
    excel: Bytes -> Option<Table>,
    docx: Bytes -> Option<seq<string>>,
    pdfInstalled: bool,
    pdf: Bytes -> Option<seq<Option<string>>>,
    utf8: Bytes -> Option<string>)

  /** Why opening stored nothing. */
  datatype Failure =
    | EmptyInput       // no URL given, or the pasted text is blank: a warning
    | Unreadable       // every reader failed: an error message
    | UnsupportedName  // an uploaded file with none of the handled extensions

  /** The outcome of opening a document. */
  datatype Loaded =
    | TableDoc(table: Table)   // the frame is stored and any stored full text dropped
    | TextDoc(text: string)    // the text is stored, with a one-column frame of its lines
    | ParsedNotStored          // read successfully, but nothing is stored
    | Failed(failure: Failure)

  // ---------------------------------------------------------------------
  // Text decoding
  // ---------------------------------------------------------------------

  /** `bytes.decode("latin-1")`: every byte is the code point of the same
      value, so this decode never fails. */
  function Latin1(bytes: Bytes): (s: string)
    ensures |s| == |bytes|
    ensures forall i | 0 <= i < |bytes| :: s[i] as int == bytes[i] as int
  {
    seq(|bytes|, i requires 0 <= i < |bytes| => (bytes[i] as int) as char)
  }

  /** Decode as UTF-8, falling back to Latin-1 when that fails. */
  function DecodeText(content: Bytes, p: Parsers): (text: string)
    ensures p.utf8(content).Some? ==> text == p.utf8(content).value
    ensures p.utf8(content).None? ==> |text| == |content|
    ensures p.utf8(content).None? ==> forall i | 0 <= i < |content| :: text[i] as int == content[i] as int
  {
    match p.utf8(content)
    case Some(t) => t
    case None => Latin1(content)
  }

  // ---------------------------------------------------------------------
  // PDF pages
  // ---------------------------------------------------------------------

  /** The pages whose extraction yielded non-empty text, in page order. */
  function KeptPages(pages: seq<Option<string>>): (kept: seq<string>)
    ensures |kept| <= |pages|
    ensures forall k | 0 <= k < |kept| :: kept[k] != ""
    ensures kept == [] <==> forall i | 0 <= i < |pages| :: pages[i].None? || pages[i].value == ""
  {
    if |pages| == 0 then []
    else
      var rest := KeptPages(pages[1..]);
      assert forall i | 1 <= i < |pages| :: pages[i] == pages[1..][i - 1];
      match pages[0]
      case Some(t) => if t != "" then [t] + rest else rest
      case None => rest
  }

  /** Page order is kept: the pages kept from two runs of pages are those
      of the first run followed by those of the second. */
  lemma {:induction false} KeptPagesAppend(a: seq<Option<string>>, b: seq<Option<string>>)
    ensures KeptPages(a + b) == KeptPages(a) + KeptPages(b)
    decreases |a|
  {
    if |a| == 0 {
      assert a + b == b;
    } else {
      assert (a + b)[0] == a[0];
      assert (a + b)[1..] == a[1..] + b;
      KeptPagesAppend(a[1..], b);
    }
  }

  /** Every page with non-empty text is kept. */
  lemma {:induction false} PageKept(pages: seq<Option<string>>, i: int)
    requires 0 <= i < |pages| && pages[i].Some? && pages[i].value != ""
    ensures pages[i].value in KeptPages(pages)
    decreases i
  {
    if i > 0 {
      PageKept(pages[1..], i - 1);
    }
  }

  /** The text of a PDF: the kept pages joined with "\n"; None when no page
      yielded text, so that the chain goes on to the next reader. */
  function PdfText(pages: seq<Option<string>>): (r: Option<string>)
    ensures r.None? <==> forall i | 0 <= i < |pages| :: pages[i].None? || pages[i].value == ""
    ensures r.Some? ==> r.value == Join(KeptPages(pages), "\n")
  {
    var kept := KeptPages(pages);
    if kept == [] then None else Some(Join(kept, "\n"))
  }

  /** A character absent from every page's text is absent from every kept
      page. */
  lemma {:induction false} KeptPagesAvoid(pages: seq<Option<string>>, c: char)
    requires forall i | 0 <= i < |pages| && pages[i].Some? :: c !in pages[i].value
    ensures forall k | 0 <= k < |KeptPages(pages)| :: c !in KeptPages(pages)[k]
    decreases |pages|
  {
    if |pages| > 0 {
      assert forall i | 1 <= i < |pages| :: pages[i] == pages[1..][i - 1];
      KeptPagesAvoid(pages[1..], c);
    }
  }

  /** Read back at its line breaks, the PDF's text is the kept pages in page
      order, when no page's text holds a line break. */
  lemma PdfTextPages(pages: seq<Option<string>>)
    requires PdfText(pages).Some?
    requires forall i | 0 <= i < |pages| && pages[i].Some? :: '\n' !in pages[i].value
    ensures Split(PdfText(pages).value, '\n') == KeptPages(pages)
  {
    KeptPagesAvoid(pages, '\n');
    SplitJoin(KeptPages(pages), '\n');
  }

  /** A pattern that occurs in the text of any page occurs in the PDF's
      text. */
  lemma PdfPageSearchable(pages: seq<Option<string>>, i: int, pattern: string)
    requires 0 <= i < |pages| && pages[i].Some?
    requires pattern != "" && Contains(pages[i].value, pattern)
    ensures PdfText(pages).Some?
    ensures Contains(PdfText(pages).value, pattern)
  {
    var t := pages[i].value;
    if t == "" {
      ContainsIffOccurs(t, pattern);
      assert false;
    }
    PageKept(pages, i);
    var kept := KeptPages(pages);
    var k :| 0 <= k < |kept| && kept[k] == t;
    JoinContainsPart(kept, "\n", k);
    ContainsTransitive(Join(kept, "\n"), t, pattern);
  }

  // ---------------------------------------------------------------------
  // The URL fallback chain
  // ---------------------------------------------------------------------

  function AsTableDoc(o: Option<Table>): Option<Loaded>
  {
    match o
    case Some(t) => Some(TableDoc(t))
    case None => None
  }

  /** Excel from the fetched bytes: a success that stores nothing. */
  function ExcelBytesAttempt(content: Bytes, p: Parsers): (r: Option<Loaded>)
    ensures r.Some? <==> p.excel(content).Some?
    ensures r.Some? ==> r.value == ParsedNotStored
  {
    if p.excel(content).Some? then Some(ParsedNotStored) else None
  }

  /** A Word document counts only when its paragraphs, joined with "\n",
      are not blank. */
  function DocxAttempt(content: Bytes, p: Parsers): (r: Option<Loaded>)
    ensures r.Some? <==> p.docx(content).Some? && !IsBlank(Join(p.docx(content).value, "\n"))
    ensures r.Some? ==> r.value == TextDoc(Join(p.docx(content).value, "\n"))
  {
    match p.docx(content)
    case None => None
    case Some(paragraphs) =>
      var text := Join(paragraphs, "\n");
      StripEmptyIffBlank(text);
      if Strip(text) != "" then Some(TextDoc(text)) else None
  }

  /** A PDF counts only when the reader is installed, opens the bytes, and
      at least one page yields text. */
  function PdfAttempt(content: Bytes, p: Parsers): (r: Option<Loaded>)
    ensures r.Some? <==> p.pdfInstalled && p.pdf(content).Some? && PdfText(p.pdf(content).value).Some?
    ensures r.Some? ==> r.value == TextDoc(PdfText(p.pdf(content).value).value)
  {
    if !p.pdfInstalled then None
    else
      match p.pdf(content)
      case None => None
      case Some(pages) =>
        match PdfText(pages)
        case None => None
        case Some(text) => Some(TextDoc(text))
  }

  /** The readers tried on the fetched bytes, in order; the last one, the
      text decode, always succeeds. */
  function ByteAttempts(content: Bytes, p: Parsers): (r: seq<Option<Loaded>>)
    ensures |r| == 4
    ensures r[3] == Some(TextDoc(DecodeText(content, p)))
    ensures forall i | 0 <= i < |r| && r[i].Some? :: !r[i].value.TableDoc? && !r[i].value.Failed?
  {
    [ExcelBytesAttempt(content, p), DocxAttempt(content, p), PdfAttempt(content, p),
     Some(TextDoc(DecodeText(content, p)))]
  }

  /** Every attempt of the URL chain, in order: CSV and Excel on the URL,
      then, if the fetch succeeds, the readers on its bytes. */
  function UrlAttempts(url: string, p: Parsers): (r: seq<Option<Loaded>>)
    ensures |r| == if p.fetch(url).Some? then 6 else 2
    ensures r[0].Some? <==> p.csvAt(url).Some?
    ensures r[1].Some? <==> p.excelAt(url).Some?
    ensures forall i | 0 <= i < 2 && r[i].Some? :: r[i].value.TableDoc?
    ensures p.fetch(url).Some? ==> r[2..] == ByteAttempts(p.fetch(url).value, p)
  {
    [AsTableDoc(p.csvAt(url)), AsTableDoc(p.excelAt(url))]
    + match p.fetch(url)
      case None => []
      case Some(content) => ByteAttempts(content, p)
  }

  /** The chain on fetched bytes, as the `read_success` guards write it. */
  function OpenBytes(content: Bytes, p: Parsers): (r: Loaded)
    ensures r == FirstSome(ByteAttempts(content, p)).GetOr(Failed(Unreadable))
    ensures !r.Failed? && !r.TableDoc?
  {
    var attempts := ByteAttempts(content, p);
    assert attempts[1..][0] == attempts[1];
    assert attempts[1..][1..][0] == attempts[2];
    assert attempts[1..][1..][1..] == [attempts[3]];
    if p.excel(content).Some? then ParsedNotStored
    else
      match DocxAttempt(content, p)
      case Some(r) => r
      case None =>
        match PdfAttempt(content, p)
        case Some(r) => r
        case None => TextDoc(DecodeText(content, p))
  }

  /** Opening a URL. The first attempt that succeeds decides; the error is
      reported only when CSV and Excel on the URL fail and the fetch itself
      fails, because the text decode after a successful fetch cannot fail. */
  function OpenUrl(url: string, p: Parsers): (r: Loaded)
    ensures url == "" <==> r == Failed(EmptyInput)
    ensures url != "" ==> r == FirstSome(UrlAttempts(url, p)).GetOr(Failed(Unreadable))
    ensures r == Failed(Unreadable)
        <==> url != "" && p.csvAt(url).None? && p.excelAt(url).None? && p.fetch(url).None?
  {
    if url == "" then Failed(EmptyInput)
    else if p.csvAt(url).Some? then TableDoc(p.csvAt(url).value)
    else if p.excelAt(url).Some? then TableDoc(p.excelAt(url).value)
    else
      match p.fetch(url)
      case None => Failed(Unreadable)
      case Some(content) =>
        var front := [AsTableDoc(p.csvAt(url)), AsTableDoc(p.excelAt(url))];
        assert FirstSome(front) == None;
        FirstSomeAppend(front, ByteAttempts(content, p));
        OpenBytes(content, p)
  }

  /** On fetched bytes, a Word document whose text is blank is treated
      exactly as one that could not be parsed. */
  lemma BlankDocxSameBytes(content: Bytes, p: Parsers)
    requires p.docx(content).Some? && IsBlank(Join(p.docx(content).value, "\n"))
    ensures OpenBytes(content, p) == OpenBytes(content, p.(docx := _ => None))
  {
    var q := p.(docx := _ => None);
    assert DocxAttempt(content, p) == None;
    assert DocxAttempt(content, q) == None;
    assert PdfAttempt(content, p) == PdfAttempt(content, q);
  }

  /** A Word document whose text is blank is treated exactly as one that
      could not be parsed. */
  lemma BlankDocxFallsThrough(url: string, p: Parsers, content: Bytes)
    requires p.fetch(url) == Some(content)
    requires p.docx(content).Some? && IsBlank(Join(p.docx(content).value, "\n"))
    ensures OpenUrl(url, p) == OpenUrl(url, p.(docx := _ => None))
  {
    BlankDocxSameBytes(content, p);
  }

  // ---------------------------------------------------------------------
  // Uploaded files and pasted text
  // ---------------------------------------------------------------------

  /** `name.endswith(suffix)` */
  predicate EndsWith(name: string, suffix: string)
  {
    |suffix| <= |name| && name[|name| - |suffix|..] == suffix
  }

  predicate IsCsvName(name: string) { EndsWith(name, ".csv") }
  predicate IsExcelName(name: string) { EndsWith(name, ".xlsx") || EndsWith(name, ".xls") }
  predicate IsTxtName(name: string) { EndsWith(name, ".txt") }
  predicate IsDocxName(name: string) { EndsWith(name, ".docx") }

  /** A name ending in `suffix` has `suffix`'s last character at index
      `|name| - |suffix| + k`. */
  lemma EndsWithAt(name: string, suffix: string, k: int)
    requires EndsWith(name, suffix) && 0 <= k < |suffix|
    ensures name[|name| - |suffix| + k] == suffix[k]
  {
    assert name[|name| - |suffix|..][k] == suffix[k];
  }

  /** The extensions the upload handles exclude one another, so the order in
      which they are checked does not matter. */
  lemma ExtensionsExclusive(name: string)
    ensures !(IsCsvName(name) && (IsExcelName(name) || IsTxtName(name) || IsDocxName(name)))
    ensures !(IsExcelName(name) && (IsTxtName(name) || IsDocxName(name)))
    ensures !(IsTxtName(name) && IsDocxName(name))
  {
    var n := |name|;
    if IsCsvName(name) { EndsWithAt(name, ".csv", 3); }
    if EndsWith(name, ".xlsx") { EndsWithAt(name, ".xlsx", 4); EndsWithAt(name, ".xlsx", 3); }
    if EndsWith(name, ".xls") { EndsWithAt(name, ".xls", 3); }
    if IsTxtName(name) { EndsWithAt(name, ".txt", 3); }
    if IsDocxName(name) { EndsWithAt(name, ".docx", 4); EndsWithAt(name, ".docx", 3); }
  }

  /** Opening an uploaded file by its extension. Unlike the URL chain there
      is no fallback: a reader that fails is an error, a ".txt" file that is
      not UTF-8 is not decoded as Latin-1, and a Word document is stored
      even when its text is blank. */
  function OpenUpload(name: string, content: Bytes, p: Parsers): (r: Loaded)
    ensures r == Failed(UnsupportedName)
        <==> !IsCsvName(name) && !IsExcelName(name) && !IsTxtName(name) && !IsDocxName(name)
    ensures IsCsvName(name) || IsExcelName(name) ==> r.TableDoc? || r == Failed(Unreadable)
    ensures IsTxtName(name) || IsDocxName(name) ==> r.TextDoc? || r == Failed(Unreadable)
    ensures IsTxtName(name) ==> (r == Failed(Unreadable) <==> p.utf8(content).None?)
    ensures IsCsvName(name) ==> r == AsTableDoc(p.csv(content)).GetOr(Failed(Unreadable))
    ensures IsExcelName(name) ==> r == AsTableDoc(p.excel(content)).GetOr(Failed(Unreadable))
    ensures IsTxtName(name) && p.utf8(content).Some? ==> r == TextDoc(p.utf8(content).value)
    ensures IsDocxName(name) && p.docx(content).Some? ==> r == TextDoc(Join(p.docx(content).value, "\n"))
    ensures IsDocxName(name) && p.docx(content).None? ==> r == Failed(Unreadable)
    ensures !r.ParsedNotStored? && r != Failed(EmptyInput)
  {
    ExtensionsExclusive(name);
    if IsCsvName(name) then
      match p.csv(content)
      case Some(t) => TableDoc(t)
      case None => Failed(Unreadable)
    else if IsExcelName(name) then
      match p.excel(content)
      case Some(t) => TableDoc(t)
      case None => Failed(Unreadable)
    else if IsTxtName(name) then
      match p.utf8(content)
      case Some(t) => TextDoc(t)
      case None => Failed(Unreadable)
    else if IsDocxName(name) then
      match p.docx(content)
      case Some(paragraphs) => TextDoc(Join(paragraphs, "\n"))
      case None => Failed(Unreadable)
    else Failed(UnsupportedName)
  }

  /** Whether `stem + ext` ends in `suffix` depends on `ext` alone when
      `suffix` is no longer than `ext`, and fails when `suffix` is longer and
      ends in another character. */
  lemma EndsWithStem(stem: string, ext: string, suffix: string)
    requires |ext| > 0 && |suffix| > 0
    ensures |suffix| <= |ext| ==> (EndsWith(stem + ext, suffix) <==> EndsWith(ext, suffix))
    ensures suffix[|suffix| - 1] != ext[|ext| - 1] ==> !EndsWith(stem + ext, suffix)
  {
    var name := stem + ext;
    if |suffix| <= |ext| {
      assert name[|name| - |suffix|..] == ext[|ext| - |suffix|..];
    }
    if EndsWith(name, suffix) {
      EndsWithAt(name, suffix, |suffix| - 1);
    }
  }

  /** Two names with the same handled extension agree on whether they end
      in any one of the handled suffixes. */
  lemma SameEnding(stem1: string, stem2: string, ext: string, suffix: string)
    requires ext in [".csv", ".xlsx", ".xls", ".txt", ".docx"]
    requires suffix in [".csv", ".xlsx", ".xls", ".txt", ".docx"]
    ensures EndsWith(stem1 + ext, suffix) == EndsWith(stem2 + ext, suffix)
  {
    EndsWithStem(stem1, ext, suffix);
    EndsWithStem(stem2, ext, suffix);
  }

  /** Only the extension decides how an upload is read: two files with the
      same content and the same handled extension give the same outcome,
      whatever the rest of their names. */
  lemma UploadDependsOnlyOnExtension(stem1: string, stem2: string, ext: string, content: Bytes, p: Parsers)
    requires ext in [".csv", ".xlsx", ".xls", ".txt", ".docx"]
    ensures OpenUpload(stem1 + ext, content, p) == OpenUpload(stem2 + ext, content, p)
  {
    SameEnding(stem1, stem2, ext, ".csv");
    SameEnding(stem1, stem2, ext, ".xlsx");
    SameEnding(stem1, stem2, ext, ".xls");
    SameEnding(stem1, stem2, ext, ".txt");
    SameEnding(stem1, stem2, ext, ".docx");
  }

  /** Pasted text is taken verbatim, surrounding whitespace included, unless
      it is blank. */
  function UsePastedText(pasted: string): (r: Loaded)
    ensures r == TextDoc(pasted) <==> !IsBlank(pasted)
    ensures r != TextDoc(pasted) ==> r == Failed(EmptyInput)
  {
    StripEmptyIffBlank(pasted);
    if Strip(pasted) != "" then TextDoc(pasted) else Failed(EmptyInput)
  }
}

=== FILE: options.dfy ===
/** Optional values and the "first attempt that succeeds" combinator that the
    document-opening code builds out of a chain of `read_success` guards. */
module Options {

  /** A value that may be missing. `None` is a reader that raised, a fetch
      that failed, or a column or key that is not there. */
  datatype Option<+T> = None | Some(value: T) {

    /** The held value; `default` stands in when there is none. */
    function GetOr(default: T): (r: T)
      ensures Some? ==> r == value
      ensures None? ==> r == default
    {
      match this
      case Some(v) => v
      case None => default
    }
  }

  /** Attempt `i` is the first successful one. */
  ghost predicate FirstSuccessAt<T>(attempts: seq<Option<T>>, i: int)
  {
    && 0 <= i < |attempts|
    && attempts[i].Some?
    && forall j | 0 <= j < i :: attempts[j].None?
  }

  /** The result of the first attempt that succeeded, in order; None when
      every attempt failed. Later attempts are never consulted once one
      succeeds. */
  function FirstSome<T>(attempts: seq<Option<T>>): (r: Option<T>)
    ensures r.None? <==> forall i | 0 <= i < |attempts| :: attempts[i].None?
    ensures r.Some? ==> exists i :: FirstSuccessAt(attempts, i) && attempts[i] == r
  {
    if |attempts| == 0 then None
    else if attempts[0].Some? then attempts[0]
    else
      var r := FirstSome(attempts[1..]);
      assert forall i | 1 <= i < |attempts| :: attempts[i] == attempts[1..][i - 1];
      if r.Some? then
        ghost var k :| FirstSuccessAt(attempts[1..], k) && attempts[1..][k] == r;
        assert FirstSuccessAt(attempts, k + 1);
        r
      else r
  }

  /** Attempts after the first success are irrelevant: appending more
      attempts to a chain that already succeeds does not change its result,
      and a chain whose every attempt failed hands over to what follows. */
  lemma {:induction false} FirstSomeAppend<T>(a: seq<Option<T>>, b: seq<Option<T>>)
    ensures FirstSome(a).Some? ==> FirstSome(a + b) == FirstSome(a)
    ensures FirstSome(a).None? ==> FirstSome(a + b) == FirstSome(b)
    decreases |a|
  {
    if |a| == 0 {
      assert a + b == b;
    } else {
      assert (a + b)[0] == a[0];
      assert (a + b)[1..] == a[1..] + b;
      if a[0].None? {
        FirstSomeAppend(a[1..], b);
      }
    }
  }
}

=== FILE: tables.dfy ===
/** Tabular documents and rule tables: a pandas DataFrame after
    `astype(str)`, seen as column labels plus rows of cell strings. */
module Tables {
  import opened Options
  import opened Text

  /** Column labels and, per row, its cells in column order. The row index
      and the header row are not cells: `row.values` holds neither. */
  datatype Table = Table(columns: seq<string>, rows: seq<seq<string>>)

  /** Position of the first column labelled `name`, if any. */
  function ColumnIndex(columns: seq<string>, name: string): (r: Option<nat>)
    ensures r.None? <==> name !in columns
    ensures r.Some? ==> r.value < |columns| && columns[r.value] == name
    ensures r.Some? ==> forall k | 0 <= k < r.value :: columns[k] != name
  {
    if |columns| == 0 then None
    else if columns[0] == name then Some(0)
    else
      match ColumnIndex(columns[1..], name)
      case None => None
      case Some(k) => Some(k + 1)
  }

  /** `row.get(name, "")`: the row's cell under column `name`, or "" when
      the table has no such column. */
  function Cell(t: Table, row: seq<string>, name: string): (r: string)
    ensures name !in t.columns ==> r == ""
    ensures forall k | 0 <= k < |row| && k < |t.columns| && t.columns[k] == name
                     && (forall j | 0 <= j < k :: t.columns[j] != name) :: r == row[k]
  {
    match ColumnIndex(t.columns, name)
    case None => ""
    case Some(k) => if k < |row| then row[k] else ""
  }

  /** `" ".join(row.values)`: one row as one line of text. */
  function RowText(row: seq<string>): string
  {
    Join(row, " ")
  }

  /** Read back at its spaces, a row's line gives the row's cells back, when
      no cell holds a space: the cells are separated by exactly one space. */
  lemma RowTextCells(row: seq<string>)
    requires |row| >= 1
    requires forall j | 0 <= j < |row| :: ' ' !in row[j]
    ensures Split(RowText(row), ' ') == row
  {
    SplitJoin(row, ' ');
  }

  /** Text running across two neighbouring cells, with one space between
      them, is searchable in the table's text. */
  lemma AdjacentCellsSearchable(t: Table, i: int, j: int)
    requires 0 <= i < |t.rows| && 0 <= j < |t.rows[i]| - 1
    ensures Contains(TableText(t), t.rows[i][j] + " " + t.rows[i][j + 1])
  {
    JoinContainsPair(t.rows[i], " ", j);
    ContainsTransitive(TableText(t), RowText(t.rows[i]), t.rows[i][j] + " " + t.rows[i][j + 1]);
  }

  /** The line of every row, in row order. */
  function RowTexts(rows: seq<seq<string>>): (r: seq<string>)
    ensures |r| == |rows|
    ensures forall i | 0 <= i < |rows| :: r[i] == RowText(rows[i])
  {
    seq(|rows|, i requires 0 <= i < |rows| => RowText(rows[i]))
  }

  /** The searchable text of a table: the row lines joined with "\n". Every
      row's line is in it, and a table with no rows yields "". */
  function TableText(t: Table): (r: string)
    ensures t.rows == [] ==> r == ""
    ensures forall i | 0 <= i < |t.rows| :: Contains(r, RowText(t.rows[i]))
  {
    JoinContainsParts(RowTexts(t.rows), "\n");
    Join(RowTexts(t.rows), "\n")
  }

  /** Every cell of every row is searchable in the table's text, so a
      pattern that occurs inside any cell is found. */
  lemma CellSearchable(t: Table, i: int, j: int, pattern: string)
    requires 0 <= i < |t.rows| && 0 <= j < |t.rows[i]|
    requires Contains(t.rows[i][j], pattern)
    ensures Contains(TableText(t), pattern)
  {
    var lines := RowTexts(t.rows);
    JoinContainsPart(t.rows[i], " ", j);
    JoinContainsPart(lines, "\n", i);
    ContainsTransitive(TableText(t), lines[i], t.rows[i][j]);
    ContainsTransitive(TableText(t), t.rows[i][j], pattern);
  }

  /** Splitting the table's text on "\n" gives back one line per row, in
      order, when no cell holds a line break. */
  lemma TableTextLines(t: Table)
    requires |t.rows| >= 1
    requires forall i, j | 0 <= i < |t.rows| && 0 <= j < |t.rows[i]| :: '\n' !in t.rows[i][j]
    ensures Split(TableText(t), '\n') == RowTexts(t.rows)
  {
    var lines := RowTexts(t.rows);
    forall i | 0 <= i < |lines|
      ensures '\n' !in lines[i]
    {
      JoinAvoids(t.rows[i], " ", '\n');
    }
    SplitJoin(lines, '\n');
  }

  /** Two rows of two cells: cells joined with a space, rows with a line
      break. */
  lemma TableTextExample()
    ensures TableText(Table(["x", "y"], [["a", "b"], ["c", "d"]])) == "a b\nc d"
  {
    var rows := [["a", "b"], ["c", "d"]];
    assert ["a", "b"][1..] == ["b"] && ["c", "d"][1..] == ["d"];
    assert RowText(["a", "b"]) == "a b" && RowText(["c", "d"]) == "c d";
    assert RowTexts(rows) == ["a b", "c d"];
    assert RowTexts(rows)[1..] == ["c d"];
  }

  /** The one-column frame `pd.DataFrame({"text": lines})`. */
  function LinesTable(lines: seq<string>): (t: Table)
    ensures t.columns == ["text"] && |t.rows| == |lines|
    ensures forall i | 0 <= i < |lines| :: t.rows[i] == [lines[i]]
  {
    Table(["text"], seq(|lines|, i requires 0 <= i < |lines| => [lines[i]]))
  }

  /** The text of a one-column frame of lines is the lines joined with "\n". */
  lemma LinesTableText(lines: seq<string>)
    ensures TableText(LinesTable(lines)) == Join(lines, "\n")
  {
    assert RowTexts(LinesTable(lines).rows) == lines;
  }
}

=== FILE: text.dfy ===
/** The Python string operations the wording checker relies on, on
    `string == seq<char>`: substring containment (`needle in hay`),
    `sep.join(parts)`, splitting on one separator character, `str.strip()`
    and `str.splitlines()` for text whose only line break is '\n'. */
module Text {

  // ---------------------------------------------------------------------
  // Substring containment
  // ---------------------------------------------------------------------

  /** `needle` occurs in `hay` starting at index `i`. */
  predicate OccursAt(hay: string, needle: string, i: int)
  {
    0 <= i && i + |needle| <= |hay| && hay[i..i + |needle|] == needle
  }

  /** Python's `needle in hay`: literal, case-sensitive containment, with no
      normalisation of whitespace or character width and no word boundaries. */
  predicate Contains(hay: string, needle: string): (b: bool)
    ensures b ==> |needle| <= |hay|
    ensures needle == "" ==> b
    decreases |hay|
  {
    needle <= hay || (|hay| > 0 && Contains(hay[1..], needle))
  }

  /** The scan agrees with the textbook definition: containment holds exactly
      when the needle occurs at some index of the haystack. */
  lemma {:induction false} ContainsIffOccurs(hay: string, needle: string)
    ensures Contains(hay, needle) <==> exists i :: OccursAt(hay, needle, i)
    decreases |hay|
  {
    if needle <= hay {
      assert OccursAt(hay, needle, 0);
    } else if |hay| == 0 {
    } else {
      ContainsIffOccurs(hay[1..], needle);
      if exists i :: OccursAt(hay[1..], needle, i) {
        var i :| OccursAt(hay[1..], needle, i);
        assert hay[1..][i..i + |needle|] == hay[i + 1..i + 1 + |needle|];
        assert OccursAt(hay, needle, i + 1);
      }
      if exists i :: OccursAt(hay, needle, i) {
        var i :| OccursAt(hay, needle, i);
        if i == 0 {
          assert false;
        }
        assert hay[1..][i - 1..i - 1 + |needle|] == hay[i..i + |needle|];
        assert OccursAt(hay[1..], needle, i - 1);
      }
    }
  }

  /** Text added after the haystack never hides a match. */
  lemma {:induction false} ContainsExtendRight(x: string, y: string, needle: string)
    requires Contains(x, needle)
    ensures Contains(x + y, needle)
    decreases |x|
  {
    if needle <= x {
      assert (x + y)[..|needle|] == x[..|needle|];
    } else {
      assert (x + y)[1..] == x[1..] + y;
      ContainsExtendRight(x[1..], y, needle);
    }
  }

  /** Text added before the haystack never hides a match. */
  lemma {:induction false} ContainsExtendLeft(x: string, y: string, needle: string)
    requires Contains(y, needle)
    ensures Contains(x + y, needle)
    decreases |x|
  {
    if |x| > 0 {
      assert (x + y)[1..] == x[1..] + y;
      ContainsExtendLeft(x[1..], y, needle);
    } else {
      assert x + y == y;
    }
  }

  /** Containment is transitive: whatever occurs in a piece of the haystack
      occurs in the haystack. */
  lemma {:induction false} ContainsTransitive(big: string, mid: string, small: string)
    requires Contains(big, mid) && Contains(mid, small)
    ensures Contains(big, small)
    decreases |big|
  {
    if mid <= big {
      assert big == mid + big[|mid|..];
      ContainsExtendRight(mid, big[|mid|..], small);
    } else {
      ContainsTransitive(big[1..], mid, small);
    }
  }

  // ---------------------------------------------------------------------
  // Join and split
  // ---------------------------------------------------------------------

  /** Python's `sep.join(parts)`. */
  function Join(parts: seq<string>, sep: string): string
  {
    if |parts| == 0 then ""
    else if |parts| == 1 then parts[0]
    else parts[0] + sep + Join(parts[1..], sep)
  }

  /** Every part is searchable in the joined text. */
  lemma {:induction false} JoinContainsPart(parts: seq<string>, sep: string, k: int)
    requires 0 <= k < |parts|
    ensures Contains(Join(parts, sep), parts[k])
    decreases k
  {
    if |parts| == 1 {
      assert parts[k] <= Join(parts, sep);
    } else if k == 0 {
      var rest := sep + Join(parts[1..], sep);
      assert Join(parts, sep) == parts[0] + rest;
      assert parts[0] <= Join(parts, sep);
    } else {
      JoinContainsPart(parts[1..], sep, k - 1);
      assert Join(parts, sep) == (parts[0] + sep) + Join(parts[1..], sep);
      ContainsExtendLeft(parts[0] + sep, Join(parts[1..], sep), parts[k]);
    }
  }

  /** Every part is searchable in the joined text, all at once. */
  lemma JoinContainsParts(parts: seq<string>, sep: string)
    ensures forall k | 0 <= k < |parts| :: Contains(Join(parts, sep), parts[k])
  {
    forall k | 0 <= k < |parts|
      ensures Contains(Join(parts, sep), parts[k])
    {
      JoinContainsPart(parts, sep, k);
    }
  }

  /** Two neighbouring parts, with the separator between them, are
      searchable in the joined text. */
  lemma {:induction false} JoinContainsPair(parts: seq<string>, sep: string, k: int)
    requires 0 <= k < |parts| - 1
    ensures Contains(Join(parts, sep), parts[k] + sep + parts[k + 1])
    decreases k
  {
    var rest := Join(parts[1..], sep);
    assert Join(parts, sep) == parts[0] + sep + rest;
    if k == 0 {
      if |parts| == 2 {
        assert rest == parts[1];
      } else {
        assert rest == parts[1] + (sep + Join(parts[2..], sep));
      }
      assert parts[0] + sep + parts[1] <= Join(parts, sep);
    } else {
      JoinContainsPair(parts[1..], sep, k - 1);
      assert Join(parts, sep) == (parts[0] + sep) + rest;
      ContainsExtendLeft(parts[0] + sep, rest, parts[k] + sep + parts[k + 1]);
    }
  }

  /** A character absent from every part and from the separator is absent
      from the joined text. */
  lemma {:induction false} JoinAvoids(parts: seq<string>, sep: string, c: char)
    requires c !in sep
    requires forall k | 0 <= k < |parts| :: c !in parts[k]
    ensures c !in Join(parts, sep)
    decreases |parts|
  {
    if |parts| > 1 {
      JoinAvoids(parts[1..], sep, c);
    }
  }

  /** Index of the first occurrence of `c` in `s`. */
  function IndexOf(s: string, c: char): (i: nat)
    requires c in s
    ensures i < |s| && s[i] == c && c !in s[..i]
  {
    if s[0] == c then 0
    else
      var i := 1 + IndexOf(s[1..], c);
      assert s[..i] == [s[0]] + s[1..][..i - 1];
      i
  }

  /** Python's `s.split(c)` for a one-character separator: the pieces between
      consecutive separators, so always at least one piece. */
  function Split(s: string, c: char): (r: seq<string>)
    ensures |r| >= 1
    ensures forall k | 0 <= k < |r| :: c !in r[k]
    decreases |s|
  {
    if c !in s then [s]
    else
      var i := IndexOf(s, c);
      [s[..i]] + Split(s[i + 1..], c)
  }

  /** The first separator of `a + [c] + b` is the one after `a` when `a`
      holds none. */
  lemma IndexOfAfterClean(a: string, b: string, c: char)
    requires c !in a
    ensures c in a + [c] + b
    ensures IndexOf(a + [c] + b, c) == |a|
  {
    var s := a + [c] + b;
    assert s[|a|] == c;
    var i := IndexOf(s, c);
    if i < |a| {
      assert false;
    } else if i > |a| {
      assert false;
    }
  }

  /** Splitting at a first separator: the clean prefix is the first piece. */
  lemma SplitAt(a: string, b: string, c: char)
    requires c !in a
    ensures Split(a + [c] + b, c) == [a] + Split(b, c)
  {
    var s := a + [c] + b;
    IndexOfAfterClean(a, b, c);
    assert s[..|a|] == a;
    assert s[|a| + 1..] == b;
  }

  /** Splitting undoes joining, provided no part contains the separator. */
  lemma {:induction false} SplitJoin(parts: seq<string>, c: char)
    requires |parts| >= 1
    requires forall k | 0 <= k < |parts| :: c !in parts[k]
    ensures Split(Join(parts, [c]), c) == parts
    decreases |parts|
  {
    if |parts| > 1 {
      var rest := Join(parts[1..], [c]);
      assert Join(parts, [c]) == parts[0] + [c] + rest;
      SplitAt(parts[0], rest, c);
      SplitJoin(parts[1..], c);
      assert parts == [parts[0]] + parts[1..];
    }
  }

  /** Joining undoes splitting. */
  lemma {:induction false} JoinSplit(s: string, c: char)
    ensures Join(Split(s, c), [c]) == s
    decreases |s|
  {
    if c in s {
      var i := IndexOf(s, c);
      var a, b := s[..i], s[i + 1..];
      assert s == a + [c] + b;
      SplitAt(a, b, c);
      JoinSplit(b, c);
      assert ([a] + Split(b, c))[1..] == Split(b, c);
    }
  }

  /** Splitting text that was glued at a separator splits each side on its
      own: the pieces of `a` come first, then those of `b`. */
  lemma {:induction false} SplitConcat(a: string, b: string, c: char)
    ensures Split(a + [c] + b, c) == Split(a, c) + Split(b, c)
    decreases |a|
  {
    if c !in a {
      SplitAt(a, b, c);
    } else {
      var i := IndexOf(a, c);
      var a1, a2 := a[..i], a[i + 1..];
      assert a == a1 + [c] + a2;
      assert a + [c] + b == a1 + [c] + (a2 + [c] + b);
      calc {
        Split(a + [c] + b, c);
        { SplitAt(a1, a2 + [c] + b, c); }
        [a1] + Split(a2 + [c] + b, c);
        { SplitConcat(a2, b, c); }
        [a1] + (Split(a2, c) + Split(b, c));
        ([a1] + Split(a2, c)) + Split(b, c);
        { SplitAt(a1, a2, c); }
        Split(a, c) + Split(b, c);
      }
    }
  }

  /** Python's `s.splitlines()` for text whose only line break is '\n': no
      lines for the empty text, and a final '\n' does not open a new line. */
  function SplitLines(s: string): (r: seq<string>)
    ensures r == [] <==> s == ""
    ensures forall k | 0 <= k < |r| :: '\n' !in r[k]
  {
    if s == "" then []
    else
      var parts := Split(s, '\n');
      if s[|s| - 1] == '\n' then parts[..|parts| - 1] else parts
  }

  /** Joining the lines with '\n' gives the text back, up to a final '\n'. */
  lemma SplitLinesJoin(s: string)
    ensures Join(SplitLines(s), "\n") + (if s != "" && s[|s| - 1] == '\n' then "\n" else "") == s
  {
    if s != "" {
      if s[|s| - 1] == '\n' {
        var body := s[..|s| - 1];
        assert s == body + ['\n'] + "";
        SplitConcat(body, "", '\n');
        var parts := Split(s, '\n');
        assert parts[..|parts| - 1] == Split(body, '\n');
        JoinSplit(body, '\n');
      } else {
        JoinSplit(s, '\n');
      }
    }
  }

  // ---------------------------------------------------------------------
  // Whitespace
  // ---------------------------------------------------------------------

  /** The characters Python's `str.isspace()` accepts, which `str.strip()`
      with no argument removes (including the ideographic space U+3000). */
  predicate IsSpace(c: char)
  {
    || c == ' '
    || ('\t' <= c <= '\r')
    || ('\U{1C}' <= c <= '\U{1F}')
    || c == '\U{85}'
    || c == '\U{A0}'
    || c == '\U{1680}'
    || ('\U{2000}' <= c <= '\U{200A}')
    || c == '\U{2028}'
    || c == '\U{2029}'
    || c == '\U{202F}'
    || c == '\U{205F}'
    || c == '\U{3000}'
  }

  /** Every character is whitespace (vacuously so for ""). */
  predicate IsBlank(s: string)
  {
    forall i | 0 <= i < |s| :: IsSpace(s[i])
  }

  /** `s.lstrip()`: the suffix left after removing leading whitespace. */
  function TrimStart(s: string): (r: string)
    ensures |r| <= |s| && r == s[|s| - |r|..]
    ensures IsBlank(s[..|s| - |r|])
    ensures r == "" || !IsSpace(r[0])
  {
    if |s| > 0 && IsSpace(s[0]) then
      var r := TrimStart(s[1..]);
      assert s[..|s| - |r|] == [s[0]] + s[1..][..|s| - 1 - |r|];
      r
    else s
  }

  /** `s.rstrip()`: the prefix left after removing trailing whitespace. */
  function TrimEnd(s: string): (r: string)
    ensures |r| <= |s| && r == s[..|r|]
    ensures IsBlank(s[|r|..])
    ensures r == "" || !IsSpace(r[|r| - 1])
  {
    if |s| > 0 && IsSpace(s[|s| - 1]) then
      var r := TrimEnd(s[..|s| - 1]);
      assert s[|r|..] == s[..|s| - 1][|r|..] + [s[|s| - 1]];
      r
    else s
  }

  /** A prefix `r` of a suffix `u` of `s` is a piece of `s`, followed by
      what follows `r` in `u`. */
  lemma PrefixOfSuffix(s: string, u: string, r: string)
    requires |u| <= |s| && u == s[|s| - |u|..]
    requires |r| <= |u| && r == u[..|r|]
    ensures OccursAt(s, r, |s| - |u|)
    ensures s[|s| - |u| + |r|..] == u[|r|..]
  {
    var i := |s| - |u|;
    assert s[i..i + |r|] == s[i..][..|r|];
  }

  /** `r` occurs in `s` at index `i` with only whitespace before and after. */
  predicate BlankAround(s: string, r: string, i: int)
  {
    OccursAt(s, r, i) && IsBlank(s[..i]) && IsBlank(s[i + |r|..])
  }

  /** A prefix `r` of a suffix `u` of `s`, each trimmed at its open end,
      is a piece of `s` with only whitespace around it and non-space ends. */
  lemma TrimmedPiece(s: string, u: string, r: string)
    requires |u| <= |s| && u == s[|s| - |u|..] && IsBlank(s[..|s| - |u|])
    requires u == "" || !IsSpace(u[0])
    requires |r| <= |u| && r == u[..|r|] && IsBlank(u[|r|..])
    requires r == "" || !IsSpace(r[|r| - 1])
    ensures BlankAround(s, r, |s| - |u|)
    ensures r == "" || (!IsSpace(r[0]) && !IsSpace(r[|r| - 1]))
  {
    PrefixOfSuffix(s, u, r);
    assert r != "" ==> r[0] == u[0];
  }

  /** `s.strip()`: the part of `s` left between a blank prefix and a blank
      suffix, beginning and ending with a non-space character. */
  function Strip(s: string): (r: string)
    ensures |r| <= |s|
    ensures r == "" || (!IsSpace(r[0]) && !IsSpace(r[|r| - 1]))
    ensures exists i :: BlankAround(s, r, i)
  {
    var u := TrimStart(s);
    var r := TrimEnd(u);
    TrimmedPiece(s, u, r);
    r
  }

  /** `if s.strip():` fails exactly for blank text. */
  lemma StripEmptyIffBlank(s: string)
    ensures Strip(s) == "" <==> IsBlank(s)
  {
    var u := TrimStart(s);
    if IsBlank(s) {
      if u != "" {
        assert false;
      }
    }
    if Strip(s) == "" {
      assert IsBlank(u) by { assert u[0..] == u; }
      assert s == s[..|s| - |u|] + u;
      forall i | 0 <= i < |s|
        ensures IsSpace(s[i])
      {
        if i < |s| - |u| {
          assert s[i] == s[..|s| - |u|][i];
        }
      }
    }
  }
}
